=== FILE: README.md ===
# Admin user panel: selection logic and Project Manager promotion

This project models the two pieces of logic in the admin panel's "All Registered Users"
feature that have real state-transition behaviour:

- **The listing page** (`AllUsers/page.tsx`). Its event handlers become pure transitions
  over a `View` (displayed users, ticked emails, promotion candidate). They cover the
  checkbox toggle, the row-click candidate toggle, bulk delete, bulk update and
  "Assign as Project Manager". Each transition returns the next view and its effects: the
  alert text and the request or navigation it issues. The answer to a `confirm` dialog
  and the server's reply are inputs.
- **The promotion route** (`assignProjectManager/route.ts`). `POST` is modelled as a
  find → insert → delete transition over an abstract store of two collections,
  `register_user` and `project_managers`, each a sequence of records in natural order.
  Each awaited call may throw, and an injected `Faults` value decides which ones do. The
  result is the JSON answer `(success, message)` plus the new store.

The model rests on assumptions about the database driver; they are not facts proved
about MongoDB. `findOne({email})` returns the first record in natural order with that
email. `insertOne` appends its argument. `deleteOne({email})` removes exactly the first
such record. A call that throws has changed nothing.

Modules:

- `Wrappers`: `Option`.
- `Seqs`: `Filter` (JavaScript's `Array.prototype.filter`), `Join`, and `Split` as the
  reading side of `Join`. `Filter` is specified independently of its body: the result is a
  subsequence of the input holding every occurrence of every kept value and nothing else.
- `Users`: the `User` record and predicates keyed on email.
- `Collection`: the three driver calls.
- `AllUsersPage`: the page handlers.
- `AssignProjectManagerRoute`: `POST`.
- `Promotion`: page and route composed. Its main lemma, `AssignKeepsPageInStep`, says the
  page's list stays identical to `register_user` whatever the administrator answers and
  whichever store call throws, provided emails are unique. `DuplicateEmailsDiverge` shows
  why uniqueness is needed.

The route is served at `/api/adminData/assignProjectManager`. Its handler awaits five
calls inside one `try`: `req.json()`, `connectToDatabase()`, `findOne`, `insertOne` and
`deleteOne`. Each is a fault point; a throw from any of them ends in "Server error", and a
throw from the first three leaves the store untouched.

Behaviours of the code that the model states explicitly:

- Each row's checkbox sits inside the row, and nothing stops a click on it from reaching
  the row's `onClick`. A tick therefore toggles the email and also sets or clears the
  promotion candidate (`TickRow`).
- A successful bulk delete never clears the promotion candidate, even when the candidate
  was one of the deleted users (`HandleDelete` keeps `candidate`). Together with the
  previous point, ticking a user and deleting it leaves that deleted user as the candidate
  (`TickThenDeleteKeepsCandidate`).
- A successful promotion never clears the ticked emails (`HandleAssignProjectManager`
  keeps `selected`).
- The update page's query string is built without escaping (`UpdateQuerySplitsCommaEmail`).

## Model

| member | source | states |
|---|---|---|
| Seqs.Filter | v0.0/src/app/adminData/AllUsers/page.tsx:46 | the filtered list is a subsequence of the input that holds every occurrence of each kept value and no rejected value |
| Seqs.FilterAppend | v0.0/src/app/adminData/AllUsers/page.tsx:72 | filtering distributes over concatenation, so kept elements keep their relative order |
| Seqs.FilterNoDuplicates | v0.0/src/app/adminData/AllUsers/page.tsx:46 | filtering a duplicate-free list yields a duplicate-free list |
| Seqs.SplitJoin | v0.0/src/app/adminData/AllUsers/page.tsx:89 | `Seqs.Join` (JavaScript's `join(",")`) is inverted by `Seqs.Split`: splitting a joined non-empty list returns the list when no element contains the separator |
| Collection.FirstIndex | v0.0/src/app/api/adminData/assignProjectManager/route.ts:10 | returns None exactly when no record has the email, otherwise the position of the first record with it |
| Collection.FindOne | v0.0/src/app/api/adminData/assignProjectManager/route.ts:10 | findOne misses exactly when no record has the email, and otherwise yields the first matching record unchanged |
| Collection.InsertOne | v0.0/src/app/api/adminData/assignProjectManager/route.ts:17 | insertOne keeps every existing record in place and adds exactly the given record, unchanged, at the end |
| Collection.DeleteOne | v0.0/src/app/api/adminData/assignProjectManager/route.ts:20 | deleteOne leaves the collection as is when nothing matches, otherwise removes exactly the first matching record and keeps the rest in order |
| Collection.DeleteOneUnique | v0.0/src/app/api/adminData/assignProjectManager/route.ts:20 | on a collection with unique emails, deleteOne keeps emails unique and leaves no record with the deleted email |
| AllUsersPage.ToggleEmail | v0.0/src/app/adminData/AllUsers/page.tsx:44-48 | an unticked email is appended at the end; a ticked one loses every occurrence while the others keep their order and counts; as a set the selection changes by exactly that email |
| AllUsersPage.ToggleAbsentTwice | v0.0/src/app/adminData/AllUsers/page.tsx:46 | ticking an unticked email and then unticking it restores the selection exactly |
| AllUsersPage.TogglePresentTwice | v0.0/src/app/adminData/AllUsers/page.tsx:46 | unticking and re-ticking an email moves it to the end, and on a duplicate-free selection the result is a permutation of it |
| AllUsersPage.ToggleKeepsNoDuplicates | v0.0/src/app/adminData/AllUsers/page.tsx:46 | every toggle keeps a duplicate-free selection duplicate-free |
| AllUsersPage.ToggleCandidate | v0.0/src/app/adminData/AllUsers/page.tsx:93-97 | the candidate is cleared exactly when the clicked user's email equals the current candidate's email; otherwise the clicked user becomes the candidate |
| AllUsersPage.ToggleCandidateTwice | v0.0/src/app/adminData/AllUsers/page.tsx:93-97 | clicking the same row twice from no candidate returns to no candidate; in general it ends on that user only if that user's email was already the candidate's |
| AllUsersPage.ClickRow | v0.0/src/app/adminData/AllUsers/page.tsx:150-156 | a row click leaves users and selection alone and clears the candidate exactly when it had the row's email, otherwise makes the row's user the candidate |
| AllUsersPage.TickRow | v0.0/src/app/adminData/AllUsers/page.tsx:150-162 | a checkbox click changes the selection by exactly the row's email (appending it when it was unticked) and, through the row's click handler, also clears the candidate exactly when it had that email and otherwise makes the row's user the candidate |
| AllUsersPage.TickThenDeleteKeepsCandidate | v0.0/src/app/adminData/AllUsers/page.tsx:51-81 | ticking one user with no candidate and bulk-deleting it leaves that user as the candidate although it is no longer displayed |
| AllUsersPage.HandleDelete | v0.0/src/app/adminData/AllUsers/page.tsx:51-81 | an empty selection is refused with an alert and no request; a request carrying the selected emails is sent exactly when the selection is non-empty and the dialog is confirmed; on success the selected users disappear, the others are kept in order and the selection is emptied; on failure the view is unchanged and the failure alert shows; the candidate is never touched |
| AllUsersPage.DeleteKeepsOrder | v0.0/src/app/adminData/AllUsers/page.tsx:72 | the users kept after a bulk delete of a concatenated list are the users kept from each part, in order |
| AllUsersPage.HandleUpdate | v0.0/src/app/adminData/AllUsers/page.tsx:84-90 | an empty selection is refused with an alert and no navigation; otherwise the page navigates to a URL under the update page's prefix; the view is never changed |
| AllUsersPage.UpdateQueryCarriesSelection | v0.0/src/app/adminData/AllUsers/page.tsx:89 | the query string after the prefix splits at commas back into the selected emails, when none contains a comma (URL parsing of `#`, `&` is not modelled) |
| AllUsersPage.UpdateQuerySplitsCommaEmail | v0.0/src/app/adminData/AllUsers/page.tsx:89 | a selected email containing a comma reads back from the query as two emails |
| AllUsersPage.HandleAssignProjectManager | v0.0/src/app/adminData/AllUsers/page.tsx:99-128 | no candidate or an unconfirmed dialog does nothing; otherwise the candidate's email is sent; on success every user with that email disappears, the others are kept in order and the candidate is cleared; on failure the view is unchanged and the failure alert shows; the ticked selection is never touched |
| AssignProjectManagerRoute.Post | v0.0/src/app/api/adminData/assignProjectManager/route.ts:4-30 | every path returns one of three structured answers; success holds exactly when all steps complete and the email is registered; an unregistered email gives "User not found" with the store unchanged; a failed body read, connect or lookup, or a failed insert, gives "Server error" with the store unchanged; a failed delete leaves the first match copied into project_managers and still in register_user; full success appends that record unchanged to project_managers and removes exactly it from register_user |
| AssignProjectManagerRoute.PostWritesAtMostOnce | v0.0/src/app/api/adminData/assignProjectManager/route.ts:17-20 | each call adds at most one manager and removes at most one user, and the store changes without success only when the insert completed and the delete threw |
| AssignProjectManagerRoute.PostPreservesDisjoint | v0.0/src/app/api/adminData/assignProjectManager/route.ts:10-25 | unless a registered email is inserted and its delete then throws, a call keeps every email out of at least one collection, and after success the email is only a manager's |
| AssignProjectManagerRoute.MoveKeepsDisjoint | v0.0/src/app/api/adminData/assignProjectManager/route.ts:17-20 | moving the first record with a unique email from register_user to project_managers keeps the collections disjoint and leaves that email only among the managers |
| AssignProjectManagerRoute.DeleteFailureLeavesRecordInBoth | v0.0/src/app/api/adminData/assignProjectManager/route.ts:17-28 | when the insert completes and the delete throws, the record sits in both collections while the answer is only "Server error" |
| AssignProjectManagerRoute.NoEmailValidation | v0.0/src/app/api/adminData/assignProjectManager/route.ts:6-14 | once the lookup completes, the answer is "User not found" exactly when no registered user has the email, for every string |
| AssignProjectManagerRoute.PromoteOnlyUser | v0.0/src/app/api/adminData/assignProjectManager/route.ts:10-25 | promoting the only registered user moves the identical record into an empty manager collection and answers success |
| Promotion.Assign | v0.0/src/app/adminData/AllUsers/page.tsx:99-128 | an Assign click with no candidate or an unconfirmed dialog changes neither page nor store; a confirmed click leaves the store the route leaves; the ticked selection is kept; the candidate ends cleared exactly when the route completed every step for a registered email; then the displayed users lose exactly the records with the candidate's email, the others kept in order; on "User not found" or any thrown step the page is unchanged |
| Promotion.AssignAlertReportsRoute | v0.0/src/app/adminData/AllUsers/page.tsx:114-123 | after a confirmed promotion the admin sees the success alert exactly when every route step completed for a registered email, "User not found" exactly when the lookup completed without a match, and "Server error" in every other case |
| Promotion.FilterAgreesWithDeleteOne | v0.0/src/app/adminData/AllUsers/page.tsx:119 | with unique emails, the page's removal of every user with the email equals the route's deletion of the first match |
| Promotion.AssignKeepsPageInStep | v0.0/src/app/adminData/AllUsers/page.tsx:99-128 | if the page shows exactly the registered users with unique emails and the candidate among them, the same holds after an Assign click for every confirm answer and every pattern of failing store calls |
| Promotion.ClicksKeepPageInStep | v0.0/src/app/adminData/AllUsers/page.tsx:150-162 | clicking a displayed row, or ticking its checkbox (which also clicks the row), keeps the page in step with the store |
| Promotion.DuplicateEmailsDiverge | v0.0/src/app/adminData/AllUsers/page.tsx:119 | with two records sharing an email, a successful promotion removes both from the page but only the first from register_user |

## Left out

- Rendering (JSX, CSS classes, the loading and error screens) and the initial `useEffect` fetch of all users. These are presentation with no logic beyond the transitions above.
- `fetch`, JSON encoding, `alert`, `confirm`, `console.error` and `router.push` are browser I/O. Confirm answers and server replies enter as inputs; alerts, requests and navigation leave as effects.
- React's asynchronous state: each handler reads the page state once, at the moment it runs. Clicks that happen while a request is in flight are not modelled.
- `connectToDatabase` and the MongoDB driver. Record identifiers (`_id`), duplicate-key errors and the connection lifecycle are outside the model. Driver behaviour is the stated assumption about findOne, insertOne and deleteOne.
- A call that throws after its write took effect. The model assumes a throwing step wrote nothing.
- A request body whose `email` is missing or is not a string. Such a value goes into the `findOne` and `deleteOne` filters as it is, and an operator object such as `{"$ne": null}` matches, and promotes, some other record. The model's email is always a string compared for equality.
- MongoDB's matching of an email against an array-valued field. Every record has one string email.
- Concurrent promotions by several administrators. There is no coordination in the code to model.
- The getAllUsers, deleteUsers and UpdateUsers endpoints and pages. They are not part of this model. The update page's parsing of its query is represented only by `Seqs.Split` applied to the string after the prefix. The page does not URL-encode that string, and URL parsing is not modelled: an email containing `#` loses everything after it to the fragment, and one containing `&` ends the `emails` parameter, besides the comma case of `UpdateQuerySplitsCommaEmail`.
- Transport failures between page and route in `Promotion.Assign`: the composition always delivers the route's answer to the page. The page-level handlers do model an unreachable server on their own.

=== FILE: all_users_page.dfy ===
/** The selection and list logic of the "All Registered Users" admin page
    (v0.0/src/app/adminData/AllUsers/page.tsx). Each event handler becomes a pure
    transition from the page's state to its next state plus the effects it causes: the
    alert it shows and the request or navigation it issues. The answer of a `confirm`
    dialog and the server's reply to a request are inputs of the transition. */
module AllUsersPage {

  import opened Wrappers
  import opened Seqs
  import opened Users

  /** The page's state: the displayed users, the emails ticked for bulk actions, and the
      user chosen as promotion candidate (`null` in the source is None). */
  datatype View = View(users: seq<User>, selected: seq<string>, candidate: Option<User>)

  /** How a request ended, as seen by the page: the server answered `success: true`, it
      answered `success: false` with a message, or `fetch` or the JSON decoding threw. */
  datatype Answer = Succeeded | Failed(message: string) | Unreachable

  /** What the page sends out: a bulk-delete request, a promotion request, or a
      navigation to another page. */
  datatype Action = SendDelete(emails: seq<string>) | SendAssign(email: string) | Navigate(url: string)

  datatype Effects = Effects(alert: Option<string>, action: Option<Action>)

  datatype Transition = Transition(view: View, effects: Effects)

  const NoEffects := Effects(None, None)
  const SelectToDelete := "Please select at least one user to delete."
  const DeletedAlert := "Selected users deleted successfully!"
  const DeleteFailedPrefix := "Failed to delete users: "
  const DeleteUnreachable := "Failed to delete users. Please try again."
  const SelectToUpdate := "Please select at least one user to update."
  const UpdatePagePrefix := "UpdateUsers?emails="
  const AssignedSuffix := " has been assigned as a Project Manager!"
  const AssignFailedPrefix := "Failed to assign user: "
  const AssignUnreachable := "Failed to assign user. Please try again."

  /** The filter criterion `e => e !== email`. */
  function OtherThan(email: string): string -> bool {
    (e: string) => e != email
  }

  /** The filter criterion `user => !selected.includes(user.email)`. */
  function NotSelected(selected: seq<string>): User -> bool {
    (u: User) => u.email !in selected
  }

  /** The filter criterion `user => user.email !== email`. */
  function EmailOtherThan(email: string): User -> bool {
    (u: User) => u.email != email
  }

  /** `handleCheckboxChange(email)`: untick an email that is ticked, tick one that is not.
      Viewed as a set, the selection changes by exactly that one email; a newly ticked
      email goes to the end, and unticking removes every occurrence while keeping the
      remaining emails in their order. */
  function ToggleEmail(selected: seq<string>, email: string): (r: seq<string>)
    ensures email !in selected ==> r == selected + [email]
    ensures email in selected ==> IsSubsequence(r, selected) && email !in r
    ensures forall e :: e in r <==> (e in selected <==> e != email)
    ensures forall e :: e != email ==> multiset(r)[e] == multiset(selected)[e]
  {
    if email in selected then
      Filter(selected, OtherThan(email))
    else
      selected + [email]
  }

  /** Ticking an email that was not ticked and then unticking it restores the selection. */
  lemma ToggleAbsentTwice(selected: seq<string>, email: string)
    requires email !in selected
    ensures ToggleEmail(ToggleEmail(selected, email), email) == selected
  {
    FilterAppend(selected, [email], OtherThan(email));
    FilterKeepsAll(selected, OtherThan(email));
    assert Filter([email], OtherThan(email)) == [];
    assert selected + [] == selected;
  }

  /** Unticking a ticked email and ticking it again moves it to the end: the others keep
      their order, and a duplicate-free selection holds the same emails as before. */
  lemma TogglePresentTwice(selected: seq<string>, email: string)
    requires email in selected
    ensures ToggleEmail(ToggleEmail(selected, email), email)
      == Filter(selected, OtherThan(email)) + [email]
    ensures NoDuplicates(selected) ==>
      multiset(ToggleEmail(ToggleEmail(selected, email), email)) == multiset(selected)
  {
    var once := ToggleEmail(selected, email);
    assert once == Filter(selected, OtherThan(email));
    assert email !in once;
    var twice := ToggleEmail(once, email);
    assert twice == once + [email];
    if NoDuplicates(selected) {
      NoDuplicatesOccursOnce(selected, email);
      assert multiset(twice) == multiset(once) + multiset{email};
      assert multiset(twice)[email] == 1;
      forall e
        ensures multiset(twice)[e] == multiset(selected)[e]
      {
        if e != email {
          assert multiset(once)[e] == multiset(selected)[e];
        }
      }
      assert multiset(twice) == multiset(selected);
    }
  }

  /** Any toggle keeps a duplicate-free selection duplicate-free. */
  lemma ToggleKeepsNoDuplicates(selected: seq<string>, email: string)
    requires NoDuplicates(selected)
    ensures NoDuplicates(ToggleEmail(selected, email))
  {
    if email in selected {
      FilterNoDuplicates(selected, OtherThan(email));
    } else {
      var r := selected + [email];
      forall i, j | 0 <= i < j < |r|
        ensures r[i] != r[j]
      {
        if j == |selected| {
          assert r[i] == selected[i];
        } else {
          assert r[i] == selected[i] && r[j] == selected[j];
        }
      }
    }
  }

  /** `toggleSelectUser(user)`: clicking the row of the current candidate (compared by
      email) clears the candidate; clicking any other row makes that user the candidate. */
  function ToggleCandidate(candidate: Option<User>, user: User): (r: Option<User>)
    ensures r.None? <==> candidate.Some? && candidate.value.email == user.email
    ensures r.Some? ==> r.value == user
  {
    match candidate
    case Some(c) => if c.email == user.email then None else Some(user)
    case None => Some(user)
  }

  /** Clicking the same row twice: from no candidate (or any candidate with another email)
      the candidate ends cleared; from that user's own email it ends on that user. */
  lemma ToggleCandidateTwice(candidate: Option<User>, user: User)
    ensures ToggleCandidate(ToggleCandidate(candidate, user), user)
      == if candidate.Some? && candidate.value.email == user.email then Some(user) else None
  {
  }

  /** A click on a row outside its checkbox: the row's `onClick`, `toggleSelectUser(user)`. */
  function ClickRow(v: View, user: User): (w: View)
    ensures w.users == v.users && w.selected == v.selected
    ensures w.candidate.None? <==> v.candidate.Some? && v.candidate.value.email == user.email
    ensures w.candidate.Some? ==> w.candidate.value == user
  {
    v.(candidate := ToggleCandidate(v.candidate, user))
  }

  /** A click on a row's checkbox. The checkbox's `onChange` toggles the row's email, and
      since nothing stops the click from reaching the row, the row's `onClick` toggles the
      promotion candidate as well: a tick both changes the selection by that one email and
      sets or clears the candidate. */
  function TickRow(v: View, user: User): (w: View)
    ensures w.users == v.users
    ensures forall e :: e in w.selected <==> (e in v.selected <==> e != user.email)
    ensures user.email !in v.selected ==> w.selected == v.selected + [user.email]
    ensures w.candidate.None? <==> v.candidate.Some? && v.candidate.value.email == user.email
    ensures w.candidate.Some? ==> w.candidate.value == user
  {
    v.(selected := ToggleEmail(v.selected, user.email),
       candidate := ToggleCandidate(v.candidate, user))
  }

  /** Ticking a user with no candidate chosen, then bulk-deleting, leaves that deleted
      user as the promotion candidate: the page keeps offering to promote a user it no
      longer shows. */
  lemma TickThenDeleteKeepsCandidate(v: View, user: User)
    requires v.candidate.None? && v.selected == [] && user in v.users
    ensures
      var after := HandleDelete(TickRow(v, user), true, Succeeded).view;
      && after.candidate == Some(user)
      && user !in after.users
      && after.selected == []
  {
  }

  /** `handleDelete(confirmed, answer)`: an empty selection is refused with an alert and no
      request; otherwise, once confirmed, the selected emails are sent for deletion. Only a
      successful answer changes the page: every user whose email is selected disappears,
      all other users stay in order, and the selection is cleared. The candidate is never
      touched, even when it was among the deleted users. */
  function HandleDelete(v: View, confirmed: bool, answer: Answer): (t: Transition)
    ensures |v.selected| == 0 ==> t == Transition(v, Effects(Some(SelectToDelete), None))
    ensures |v.selected| > 0 && !confirmed ==> t == Transition(v, NoEffects)
    ensures t.effects.action.Some? <==> |v.selected| > 0 && confirmed
    ensures t.effects.action.Some? ==> t.effects.action.value == SendDelete(v.selected)
    ensures t.view.candidate == v.candidate
    ensures t.effects.action.Some? && answer.Succeeded? ==>
      && t.effects.alert == Some(DeletedAlert)
      && t.view.selected == []
      && IsSubsequence(t.view.users, v.users)
      && (forall u :: u in t.view.users ==> u.email !in v.selected)
      && (forall u :: multiset(t.view.users)[u]
                       == if u.email in v.selected then 0 else multiset(v.users)[u])
    ensures t.effects.action.Some? && answer.Failed? ==>
      t == Transition(v, Effects(Some(DeleteFailedPrefix + answer.message), t.effects.action))
    ensures t.effects.action.Some? && answer.Unreachable? ==>
      t == Transition(v, Effects(Some(DeleteUnreachable), t.effects.action))
  {
    if |v.selected| == 0 then Transition(v, Effects(Some(SelectToDelete), None))
    else if !confirmed then Transition(v, NoEffects)
    else
      var sent := Some(SendDelete(v.selected));
      match answer
      case Succeeded =>
        var kept := Filter(v.users, NotSelected(v.selected));
        Transition(v.(users := kept, selected := []), Effects(Some(DeletedAlert), sent))
      case Failed(message) => Transition(v, Effects(Some(DeleteFailedPrefix + message), sent))
      case Unreachable => Transition(v, Effects(Some(DeleteUnreachable), sent))
  }

  /** The users a successful bulk delete keeps are those of the list, in list order, whose
      email is not selected: deleting from a concatenation deletes from each part. */
  lemma DeleteKeepsOrder(before: seq<User>, after: seq<User>, selected: seq<string>)
    ensures
      var both := HandleDelete(View(before + after, selected, None), true, Succeeded).view.users;
      both == HandleDelete(View(before, selected, None), true, Succeeded).view.users
            + HandleDelete(View(after, selected, None), true, Succeeded).view.users
  {
    FilterAppend(before, after, NotSelected(selected));
  }

  /** `handleUpdate()`: an empty selection is refused with an alert; otherwise the page
      navigates to the update page with the selected emails, comma-joined, in the query. */
  function HandleUpdate(v: View): (t: Transition)
    ensures t.view == v
    ensures |v.selected| == 0 ==> t.effects == Effects(Some(SelectToUpdate), None)
    ensures |v.selected| > 0 ==>
      && t.effects.alert.None?
      && t.effects.action.Some? && t.effects.action.value.Navigate?
      && |UpdatePagePrefix| <= |t.effects.action.value.url|
      && t.effects.action.value.url[..|UpdatePagePrefix|] == UpdatePagePrefix
  {
    if |v.selected| == 0 then Transition(v, Effects(Some(SelectToUpdate), None))
    else Transition(v, Effects(None, Some(Navigate(UpdatePagePrefix + Join(v.selected, ',')))))
  }

  /** The query string after the prefix splits back into the selection: splitting it at
      the commas gives back the selected emails in order, provided none of them contains
      a comma. This is a fact about the string the page builds, before any URL parsing. */
  lemma UpdateQueryCarriesSelection(v: View)
    requires |v.selected| > 0
    requires forall i :: 0 <= i < |v.selected| ==> ',' !in v.selected[i]
    ensures
      var url := HandleUpdate(v).effects.action.value.url;
      Split(url[|UpdatePagePrefix|..], ',') == v.selected
  {
    var url := HandleUpdate(v).effects.action.value.url;
    assert url[|UpdatePagePrefix|..] == Join(v.selected, ',');
    SplitJoin(v.selected, ',');
  }

  /** An email that itself contains a comma does not survive the trip: the single selected
      email "a,b" reads back as the two emails "a" and "b". */
  lemma UpdateQuerySplitsCommaEmail()
    ensures
      var url := HandleUpdate(View([], ["a,b"], None)).effects.action.value.url;
      Split(url[|UpdatePagePrefix|..], ',') == ["a", "b"]
  {
    var url := HandleUpdate(View([], ["a,b"], None)).effects.action.value.url;
    assert url[|UpdatePagePrefix|..] == "a,b";
    assert Split("b", ',') == ["b"] by {
      assert "b"[0] == 'b' && "b"[1..] == "";
      assert Split("", ',') == [""];
      assert ['b'] + "" == "b";
    }
    assert Split(",b", ',') == ["", "b"] by {
      assert ",b"[0] == ',' && ",b"[1..] == "b";
    }
    assert Split("a,b", ',') == ["a", "b"] by {
      assert "a,b"[0] == 'a' && "a,b"[1..] == ",b";
      assert ['a'] + "" == "a";
    }
  }

  /** `handleAssignProjectManager(confirmed, answer)`: without a candidate nothing happens;
      otherwise, once confirmed, the candidate's email is sent. Only a successful answer
      changes the page: every user with the candidate's email disappears, all others stay
      in order, and the candidate is cleared. The ticked selection is never touched. */
  function HandleAssignProjectManager(v: View, confirmed: bool, answer: Answer): (t: Transition)
    ensures v.candidate.None? ==> t == Transition(v, NoEffects)
    ensures v.candidate.Some? && !confirmed ==> t == Transition(v, NoEffects)
    ensures t.effects.action.Some? <==> v.candidate.Some? && confirmed
    ensures t.effects.action.Some? ==> t.effects.action.value == SendAssign(v.candidate.value.email)
    ensures t.view.selected == v.selected
    ensures t.effects.action.Some? && answer.Succeeded? ==>
      && t.effects.alert == Some(v.candidate.value.firstName + AssignedSuffix)
      && t.view.candidate.None?
      && IsSubsequence(t.view.users, v.users)
      && (forall u :: u in t.view.users ==> u.email != v.candidate.value.email)
      && (forall u :: multiset(t.view.users)[u]
                       == if u.email == v.candidate.value.email then 0 else multiset(v.users)[u])
    ensures t.effects.action.Some? && answer.Failed? ==>
      t == Transition(v, Effects(Some(AssignFailedPrefix + answer.message), t.effects.action))
    ensures t.effects.action.Some? && answer.Unreachable? ==>
      t == Transition(v, Effects(Some(AssignUnreachable), t.effects.action))
  {
    match v.candidate
    case None => Transition(v, NoEffects)
    case Some(c) =>
      if !confirmed then Transition(v, NoEffects)
      else
        var sent := Some(SendAssign(c.email));
        match answer
        case Succeeded =>
          var kept := Filter(v.users, EmailOtherThan(c.email));
          Transition(v.(users := kept, candidate := None), Effects(Some(c.firstName + AssignedSuffix), sent))
        case Failed(message) => Transition(v, Effects(Some(AssignFailedPrefix + message), sent))
        case Unreachable => Transition(v, Effects(Some(AssignUnreachable), sent))
  }
}

=== FILE: assign_project_manager_route.dfy ===
/** The promotion endpoint `POST /api/adminData/assignProjectManager`
    (v0.0/src/app/api/adminData/assignProjectManager/route.ts). Given an email it looks the
    user up in `register_user`, inserts the record it found into `project_managers`, then
    deletes the record from `register_user`. The two collections form an abstract store.
    Every awaited call inside the handler's `try` block may throw; whether it does is an
    input (`Faults`), and a call that throws is assumed to have changed nothing. */
module AssignProjectManagerRoute {

  import opened Wrappers
  import opened Users
  import opened Collection

  datatype Store = Store(registerUsers: seq<User>, projectManagers: seq<User>)

  /** Whether an awaited call returns or throws. */
  datatype StepOutcome = Completes | Throws

  /** The outcome of each awaited call, in program order: reading the JSON body, connecting
      to the database, `findOne`, `insertOne` and `deleteOne`. */
  datatype Faults = Faults(
    readBody: StepOutcome,
    connect: StepOutcome,
    findOne: StepOutcome,
    insertOne: StepOutcome,
    deleteOne: StepOutcome)

  /** The JSON body of the answer; failure is signalled only by `success`. */
  datatype Response = Response(success: bool, message: string)

  datatype Reply = Reply(response: Response, store: Store)

  const Assigned := Response(true, "User assigned as Project Manager")
  const UserNotFound := Response(false, "User not found")
  const ServerError := Response(false, "Server error")

  /** The lookup is performed and returns. */
  predicate LookupCompletes(f: Faults) {
    f.readBody.Completes? && f.connect.Completes? && f.findOne.Completes?
  }

  predicate AllComplete(f: Faults) {
    LookupCompletes(f) && f.insertOne.Completes? && f.deleteOne.Completes?
  }

  /** No email is registered both as a user and as a project manager. */
  ghost predicate Disjoint(s: Store) {
    forall u, p :: u in s.registerUsers && p in s.projectManagers ==> u.email != p.email
  }

  /** The handler `POST`. The email is not validated: whatever string the body holds goes
      straight to the lookup. A missing record ends the call with "User not found" before
      any write; any throw ends it with "Server error", and the insert having run before
      the delete, a throw from the delete leaves the record in both collections. */
  function Post(s: Store, email: string, f: Faults): (r: Reply)
    ensures r.response == Assigned || r.response == UserNotFound || r.response == ServerError
    ensures r.response.success <==> AllComplete(f) && HasEmail(s.registerUsers, email)
    ensures LookupCompletes(f) && !HasEmail(s.registerUsers, email) ==> r == Reply(UserNotFound, s)
    ensures !LookupCompletes(f) ==> r == Reply(ServerError, s)
    ensures LookupCompletes(f) && HasEmail(s.registerUsers, email) && f.insertOne.Throws? ==>
      r == Reply(ServerError, s)
    ensures forall i :: IsFirstMatch(s.registerUsers, email, i) && LookupCompletes(f)
                        && f.insertOne.Completes? && f.deleteOne.Throws? ==>
      r == Reply(ServerError, s.(projectManagers := s.projectManagers + [s.registerUsers[i]]))
    ensures forall i :: IsFirstMatch(s.registerUsers, email, i) && AllComplete(f) ==>
      r == Reply(Assigned, Store(s.registerUsers[..i] + s.registerUsers[i + 1..],
                                 s.projectManagers + [s.registerUsers[i]]))
  {
    if !LookupCompletes(f) then Reply(ServerError, s)
    else
      match FindOne(s.registerUsers, email)
      case None => Reply(UserNotFound, s)
      case Some(user) =>
        if f.insertOne.Throws? then Reply(ServerError, s)
        else
          var inserted := s.(projectManagers := InsertOne(s.projectManagers, user));
          if f.deleteOne.Throws? then Reply(ServerError, inserted)
          else Reply(Assigned, inserted.(registerUsers := DeleteOne(s.registerUsers, email)))
  }

  /** Every call writes at most one record into `project_managers` and removes at most one
      from `register_user`, and the store changes without success only in the window
      between the insert and a delete that throws: a call that fails anywhere else leaves
      the store as it was. */
  lemma PostWritesAtMostOnce(s: Store, email: string, f: Faults)
    ensures var r := Post(s, email, f);
      && |s.projectManagers| <= |r.store.projectManagers| <= |s.projectManagers| + 1
      && |s.registerUsers| - 1 <= |r.store.registerUsers| <= |s.registerUsers|
      && (r.store != s && !r.response.success ==>
            LookupCompletes(f) && f.insertOne.Completes? && f.deleteOne.Throws?
            && HasEmail(s.registerUsers, email))
  {
  }

  /** A promotion that succeeds, starting from a store with unique user emails and no email
      in both collections, leaves no email in both collections: the promoted email is now
      only a project manager's. (That a call which fails outside that window leaves the
      store as it was is stated by PostWritesAtMostOnce.) */
  lemma PostPreservesDisjoint(s: Store, email: string, f: Faults)
    requires Disjoint(s) && UniqueEmails(s.registerUsers)
    requires !(LookupCompletes(f) && HasEmail(s.registerUsers, email)
               && f.insertOne.Completes? && f.deleteOne.Throws?)
    ensures Disjoint(Post(s, email, f).store)
    ensures Post(s, email, f).response.success ==>
      && !HasEmail(Post(s, email, f).store.registerUsers, email)
      && HasEmail(Post(s, email, f).store.projectManagers, email)
  {
    PostWritesAtMostOnce(s, email, f);
    if Post(s, email, f).response.success {
      var i := SuccessShape(s, email, f);
      MoveKeepsDisjoint(s, email, i);
    }
  }

  /** The store a successful call leaves, named by the position of the first match. */
  lemma SuccessShape(s: Store, email: string, f: Faults) returns (i: nat)
    requires Post(s, email, f).response.success
    ensures IsFirstMatch(s.registerUsers, email, i)
    ensures Post(s, email, f).store
      == Store(s.registerUsers[..i] + s.registerUsers[i + 1..], s.projectManagers + [s.registerUsers[i]])
  {
    i := FirstIndex(s.registerUsers, email).value;
  }

  /** Moving the first record with a unique email from the users to the managers keeps
      the collections disjoint and leaves that email only among the managers. */
  lemma MoveKeepsDisjoint(s: Store, email: string, i: nat)
    requires Disjoint(s) && UniqueEmails(s.registerUsers)
    requires IsFirstMatch(s.registerUsers, email, i)
    ensures
      var moved := Store(s.registerUsers[..i] + s.registerUsers[i + 1..],
                         s.projectManagers + [s.registerUsers[i]]);
      && Disjoint(moved)
      && !HasEmail(moved.registerUsers, email)
      && HasEmail(moved.projectManagers, email)
  {
    var promoted := s.registerUsers[i];
    var rest := s.registerUsers[..i] + s.registerUsers[i + 1..];
    var managers := s.projectManagers + [promoted];
    DeleteOneUnique(s.registerUsers, email);
    assert rest == DeleteOne(s.registerUsers, email);
    forall u, p | u in rest && p in managers
      ensures u.email != p.email
    {
      var k :| 0 <= k < |rest| && rest[k] == u;
      assert u in s.registerUsers by {
        if k < i {
          assert rest[k] == s.registerUsers[k];
        } else {
          assert rest[k] == s.registerUsers[k + 1];
        }
      }
      if p == promoted {
        assert rest[k].email != email;
      } else {
        assert p in s.projectManagers;
      }
    }
    assert managers[|s.projectManagers|] == promoted;
  }

  /** The consistency gap: when the insert succeeds and the delete throws, the found record
      sits in both collections and the caller is told only "Server error". */
  lemma DeleteFailureLeavesRecordInBoth(s: Store, email: string, f: Faults)
    requires LookupCompletes(f) && f.insertOne.Completes? && f.deleteOne.Throws?
    requires HasEmail(s.registerUsers, email)
    ensures var r := Post(s, email, f);
      && r.response == ServerError
      && !Disjoint(r.store)
      && (exists u :: u in r.store.registerUsers && u in r.store.projectManagers && u.email == email)
  {
  }

  /** No validation precedes the lookup: for every email, once the lookup completes the
      answer is "User not found" exactly when no registered user has that email. */
  lemma NoEmailValidation(s: Store, email: string, f: Faults)
    requires LookupCompletes(f)
    ensures Post(s, email, f).response == UserNotFound <==> !HasEmail(s.registerUsers, email)
  {
  }

  /** The example of promoting the only registered user into an empty manager collection. */
  lemma PromoteOnlyUser()
    ensures
      var ann := User("Ann", "Lee", "a@x.com", "");
      var ok := Faults(Completes, Completes, Completes, Completes, Completes);
      Post(Store([ann], []), "a@x.com", ok) == Reply(Assigned, Store([], [ann]))
  {
  }
}

=== FILE: collection.dfy ===
/** A document collection seen as the sequence of its records in natural order, and the
    three driver calls the promotion route makes on it. The driver's semantics are
    assumptions of this model: `findOne({email})` yields the first record in that order
    whose email equals the argument, `insertOne` appends a copy of its argument, and
    `deleteOne({email})` removes exactly the first such record. Record identifiers
    (`_id`) are not modelled. */
module Collection {

  import opened Wrappers
  import opened Users

  /** Position of the first record with email e, if any. */
  function FirstIndex(xs: seq<User>, e: string): (r: Option<nat>)
    ensures r.None? <==> !HasEmail(xs, e)
    ensures r.Some? ==> IsFirstMatch(xs, e, r.value)
    decreases |xs|
  {
    if |xs| == 0 then None
    else if xs[0].email == e then Some(0)
    else
      assert forall i :: 1 <= i < |xs| ==> xs[i] == xs[1..][i - 1];
      match FirstIndex(xs[1..], e)
      case None => None
      case Some(i) => Some(i + 1)
  }

  /** `findOne({ email: e })`. */
  function FindOne(xs: seq<User>, e: string): (r: Option<User>)
    ensures r.None? <==> !HasEmail(xs, e)
    ensures forall i :: IsFirstMatch(xs, e, i) ==> r == Some(xs[i])
  {
    match FirstIndex(xs, e)
    case None => None
    case Some(i) => Some(xs[i])
  }

  /** `insertOne(u)`. */
  function InsertOne(xs: seq<User>, u: User): (r: seq<User>)
    ensures |r| == |xs| + 1 && r[..|xs|] == xs && r[|xs|] == u
    ensures multiset(r) == multiset(xs) + multiset{u}
  {
    xs + [u]
  }

  /** `deleteOne({ email: e })`. */
  function DeleteOne(xs: seq<User>, e: string): (r: seq<User>)
    ensures !HasEmail(xs, e) ==> r == xs
    ensures forall i :: IsFirstMatch(xs, e, i) ==> r == xs[..i] + xs[i + 1..]
  {
    match FirstIndex(xs, e)
    case None => xs
    case Some(i) => xs[..i] + xs[i + 1..]
  }

  /** Deleting one record keeps the collection's emails unique and leaves no record with
      the deleted email behind. */
  lemma DeleteOneUnique(xs: seq<User>, e: string)
    requires UniqueEmails(xs)
    ensures UniqueEmails(DeleteOne(xs, e))
    ensures !HasEmail(DeleteOne(xs, e), e)
  {
  }
}

=== FILE: promotion.dfy ===
/** The page and the route together: an administrator's "Assign as Project Manager" click
    runs `handleAssignProjectManager` in the page, which, when it sends its request, runs
    `POST` against the store and reads the route's JSON answer. Transport failures between
    the two are not part of this composition: the page always receives the route's answer. */
module Promotion {

  import opened Wrappers
  import opened Seqs
  import opened Users
  import opened Collection
  import opened AllUsersPage
  import opened AssignProjectManagerRoute

  datatype System = System(view: View, store: Store)

  /** How the page reads the route's JSON body. */
  function AnswerOf(r: Response): Answer {
    if r.success then Succeeded else Failed(r.message)
  }

  /** One "Assign" click: the page handler and, when it sends, the route. */
  function Assign(sys: System, confirmed: bool, f: Faults): (next: System)
    ensures sys.view.candidate.None? || !confirmed ==> next == sys
    ensures next.view.selected == sys.view.selected
    ensures next.view.candidate.None? <==>
      || sys.view.candidate.None?
      || (confirmed && AllComplete(f) && HasEmail(sys.store.registerUsers, sys.view.candidate.value.email))
    ensures sys.view.candidate.Some?
            && !(confirmed && AllComplete(f)
                 && HasEmail(sys.store.registerUsers, sys.view.candidate.value.email))
            ==> next.view == sys.view
    ensures sys.view.candidate.Some? && confirmed ==>
      next.store == Post(sys.store, sys.view.candidate.value.email, f).store
    ensures sys.view.candidate.Some? && confirmed && AllComplete(f)
            && HasEmail(sys.store.registerUsers, sys.view.candidate.value.email) ==>
      && IsSubsequence(next.view.users, sys.view.users)
      && (forall u :: multiset(next.view.users)[u]
                       == if u.email == sys.view.candidate.value.email then 0
                          else multiset(sys.view.users)[u])
  {
    match sys.view.candidate
    case None => sys
    case Some(c) =>
      if !confirmed then sys
      else
        var reply := Post(sys.store, c.email, f);
        System(HandleAssignProjectManager(sys.view, true, AnswerOf(reply.response)).view, reply.store)
  }

  /** The page shows exactly the registered users, whose emails are unique, and the
      candidate, if any, is one of them. */
  ghost predicate Mirrors(sys: System) {
    && sys.view.users == sys.store.registerUsers
    && UniqueEmails(sys.store.registerUsers)
    && (sys.view.candidate.Some? ==> sys.view.candidate.value in sys.view.users)
  }

  /** On a collection with unique emails, the page's "remove every user with this email"
      and the driver's "delete the first record with this email" agree. */
  lemma {:induction false} FilterAgreesWithDeleteOne(xs: seq<User>, e: string)
    requires UniqueEmails(xs)
    ensures Filter(xs, EmailOtherThan(e)) == DeleteOne(xs, e)
  {
    match FirstIndex(xs, e)
    case None =>
      FilterKeepsAll(xs, EmailOtherThan(e));
    case Some(i) =>
      var before, after := xs[..i], xs[i + 1..];
      assert xs == before + [xs[i]] + after;
      assert forall k :: 0 <= k < |before| ==> EmailOtherThan(e)(before[k]) by {
        assert forall k :: 0 <= k < |before| ==> before[k] == xs[k];
      }
      assert forall k :: 0 <= k < |after| ==> EmailOtherThan(e)(after[k]) by {
        assert forall k :: 0 <= k < |after| ==> after[k] == xs[i + 1 + k];
      }
      FilterDropsOne(before, xs[i], after, EmailOtherThan(e));
  }

  /** Whatever the administrator answers and whichever store call throws, after an
      "Assign" click the page still shows exactly the registered users. On success both
      drop the promoted user; on every failure both are unchanged, even in the window where
      the record was copied into `project_managers` but not deleted. */
  lemma AssignKeepsPageInStep(sys: System, confirmed: bool, f: Faults)
    requires Mirrors(sys)
    ensures Mirrors(Assign(sys, confirmed, f))
  {
    var next := Assign(sys, confirmed, f);
    if sys.view.candidate.Some? && confirmed {
      var c := sys.view.candidate.value;
      var reply := Post(sys.store, c.email, f);
      assert HasEmail(sys.store.registerUsers, c.email) by {
        var k :| 0 <= k < |sys.view.users| && sys.view.users[k] == c;
      }
      if reply.response.success {
        FilterAgreesWithDeleteOne(sys.store.registerUsers, c.email);
        DeleteOneUnique(sys.store.registerUsers, c.email);
        var i := FirstIndex(sys.store.registerUsers, c.email).value;
        assert reply.store.registerUsers == DeleteOne(sys.store.registerUsers, c.email);
      } else {
        PostWritesAtMostOnce(sys.store, c.email, f);
        if LookupCompletes(f) && f.insertOne.Completes? && f.deleteOne.Throws? {
          var i := FirstIndex(sys.store.registerUsers, c.email).value;
          assert IsFirstMatch(sys.store.registerUsers, c.email, i);
        }
      }
    }
  }

  /** Clicking a displayed row, or ticking its checkbox (which also clicks the row), keeps
      the page in step with the store. */
  lemma ClicksKeepPageInStep(sys: System, user: User)
    requires Mirrors(sys) && user in sys.view.users
    ensures Mirrors(sys.(view := ClickRow(sys.view, user)))
    ensures Mirrors(sys.(view := TickRow(sys.view, user)))
  {
  }

  /** What the administrator is told after confirming the promotion of the candidate c: the
      success alert exactly when every step of the route completed and c's email is
      registered, "User not found" exactly when the lookup completed and found no record,
      and "Server error" in every other case. */
  lemma AssignAlertReportsRoute(s: Store, c: User, users: seq<User>, selected: seq<string>, f: Faults)
    ensures
      var answer := AnswerOf(Post(s, c.email, f).response);
      var alert := HandleAssignProjectManager(View(users, selected, Some(c)), true, answer).effects.alert;
      var registered := HasEmail(s.registerUsers, c.email);
      && ((alert == Some(c.firstName + AssignedSuffix)) <==> AllComplete(f) && registered)
      && ((alert == Some(AssignFailedPrefix + "User not found")) <==> LookupCompletes(f) && !registered)
      && ((alert == Some(AssignFailedPrefix + "Server error"))
          <==> !LookupCompletes(f) || (registered && !AllComplete(f)))
  {
    var r := Post(s, c.email, f);
    var alert := HandleAssignProjectManager(View(users, selected, Some(c)), true, AnswerOf(r.response)).effects.alert;
    assert AssignFailedPrefix + "User not found" != AssignFailedPrefix + "Server error" by {
      assert (AssignFailedPrefix + "User not found")[|AssignFailedPrefix|] == 'U';
      assert (AssignFailedPrefix + "Server error")[|AssignFailedPrefix|] == 'S';
    }
    if r.response.success {
      assert |alert.value| == |c.firstName| + |AssignedSuffix|;
      assert alert.value[|alert.value| - 1] == '!';
      assert (AssignFailedPrefix + "User not found")[|AssignFailedPrefix + "User not found"| - 1] == 'd';
      assert (AssignFailedPrefix + "Server error")[|AssignFailedPrefix + "Server error"| - 1] == 'r';
    } else {
      var m := alert.value;
      assert m == AssignFailedPrefix + r.response.message;
      assert m[|m| - 1] != '!';
    }
  }

  /** Without unique emails the two sides part: with two registered records sharing an
      email, a successful promotion of one of them removes both from the page but only
      the first from `register_user`. */
  lemma DuplicateEmailsDiverge()
    ensures
      var a := User("Ann", "Lee", "a@x.com", "");
      var b := User("Bea", "Lee", "a@x.com", "");
      var ok := Faults(Completes, Completes, Completes, Completes, Completes);
      var next := Assign(System(View([a, b], [], Some(a)), Store([a, b], [])), true, ok);
      next.view.users == [] && next.store.registerUsers == [b]
  {
  }
}

=== FILE: seqs.dfy ===
/** Sequence operations the admin panel relies on: JavaScript's `Array.prototype.filter`,
    `Array.prototype.join` and, as the reading side of a joined list, `String.prototype.split`. */
module Seqs {

  /** r can be obtained from xs by deleting elements, without reordering the rest. */
  ghost predicate IsSubsequence<T>(r: seq<T>, xs: seq<T>)
    decreases |xs|
  {
    || |r| == 0
    || (&& |xs| > 0
        && (|| (r[0] == xs[0] && IsSubsequence(r[1..], xs[1..]))
            || IsSubsequence(r, xs[1..])))
  }

  /** No element occurs twice. */
  ghost predicate NoDuplicates<T>(xs: seq<T>) {
    forall i, j :: 0 <= i < j < |xs| ==> xs[i] != xs[j]
  }

  /** The elements of xs for which keep holds, in their original order. The two
      postconditions together determine the result: it is a subsequence of xs holding
      every occurrence of every kept value and nothing else. */
  function Filter<T(!new)>(xs: seq<T>, keep: T -> bool): (r: seq<T>)
    ensures IsSubsequence(r, xs)
    ensures forall x :: multiset(r)[x] == if keep(x) then multiset(xs)[x] else 0
    ensures forall x :: x in r <==> x in xs && keep(x)
    decreases |xs|
  {
    if |xs| == 0 then []
    else
      assert xs == [xs[0]] + xs[1..];
      var rest := Filter(xs[1..], keep);
      if keep(xs[0]) then
        assert ([xs[0]] + rest)[1..] == rest;
        [xs[0]] + rest
      else
        rest
  }

  /** An element of a duplicate-free sequence occurs in it exactly once. */
  lemma {:induction false} NoDuplicatesOccursOnce<T>(xs: seq<T>, x: T)
    requires NoDuplicates(xs) && x in xs
    ensures multiset(xs)[x] == 1
    decreases |xs|
  {
    assert xs == [xs[0]] + xs[1..];
    if xs[0] == x {
      assert x !in xs[1..] by {
        forall j | 0 <= j < |xs| - 1
          ensures xs[1..][j] != x
        {
          assert xs[1..][j] == xs[j + 1];
        }
      }
    } else {
      assert NoDuplicates(xs[1..]) by {
        forall i, j | 0 <= i < j < |xs| - 1
          ensures xs[1..][i] != xs[1..][j]
        {
          assert xs[1..][i] == xs[i + 1] && xs[1..][j] == xs[j + 1];
        }
      }
      NoDuplicatesOccursOnce(xs[1..], x);
    }
  }

  /** Filtering distributes over concatenation: the kept elements of xs all come before
      the kept elements of ys, which is what "keeps the original order" means. */
  lemma {:induction false} FilterAppend<T(!new)>(xs: seq<T>, ys: seq<T>, keep: T -> bool)
    ensures Filter(xs + ys, keep) == Filter(xs, keep) + Filter(ys, keep)
    decreases |xs|
  {
    if |xs| == 0 {
      assert xs + ys == ys;
    } else {
      assert (xs + ys)[0] == xs[0];
      assert (xs + ys)[1..] == xs[1..] + ys;
      FilterAppend(xs[1..], ys, keep);
    }
  }

  /** Filtering a sequence all of whose elements are kept returns it unchanged. */
  lemma {:induction false} FilterKeepsAll<T(!new)>(xs: seq<T>, keep: T -> bool)
    requires forall i :: 0 <= i < |xs| ==> keep(xs[i])
    ensures Filter(xs, keep) == xs
    decreases |xs|
  {
    if |xs| > 0 {
      FilterKeepsAll(xs[1..], keep);
    }
  }

  /** Putting an element that does not occur in ys in front of ys keeps it free of duplicates. */
  lemma ConsNoDuplicates<T>(a: T, ys: seq<T>)
    requires a !in ys && NoDuplicates(ys)
    ensures NoDuplicates([a] + ys)
  {
  }

  /** Filtering out a single rejected element in the middle of kept ones deletes it. */
  lemma FilterDropsOne<T(!new)>(before: seq<T>, x: T, after: seq<T>, keep: T -> bool)
    requires forall i :: 0 <= i < |before| ==> keep(before[i])
    requires !keep(x)
    requires forall i :: 0 <= i < |after| ==> keep(after[i])
    ensures Filter(before + [x] + after, keep) == before + after
  {
    FilterAppend(before + [x], after, keep);
    FilterAppend(before, [x], keep);
    FilterKeepsAll(before, keep);
    FilterKeepsAll(after, keep);
    assert Filter([x], keep) == [] by {
      assert [x][1..] == [];
    }
    assert before + [] == before;
  }

  /** Filtering never introduces a duplicate. */
  lemma {:induction false} FilterNoDuplicates<T(!new)>(xs: seq<T>, keep: T -> bool)
    requires NoDuplicates(xs)
    ensures NoDuplicates(Filter(xs, keep))
    decreases |xs|
  {
    if |xs| > 0 {
      var tail := xs[1..];
      assert NoDuplicates(tail) by {
        forall i, j | 0 <= i < j < |tail|
          ensures tail[i] != tail[j]
        {
          assert tail[i] == xs[i + 1] && tail[j] == xs[j + 1];
        }
      }
      FilterNoDuplicates(tail, keep);
      if keep(xs[0]) {
        assert xs[0] !in tail by {
          forall j | 0 <= j < |tail|
            ensures tail[j] != xs[0]
          {
            assert tail[j] == xs[j + 1];
          }
        }
        ConsNoDuplicates(xs[0], Filter(tail, keep));
      }
    }
  }

  /** The elements of xs separated by sep; the empty list joins to the empty string. */
  function Join(xs: seq<string>, sep: char): (r: string)
    decreases |xs|
  {
    if |xs| == 0 then ""
    else if |xs| == 1 then xs[0]
    else xs[0] + [sep] + Join(xs[1..], sep)
  }

  /** The pieces of s between occurrences of sep; a string without sep is one piece,
      and the empty string is one empty piece. */
  function Split(s: string, sep: char): (r: seq<string>)
    ensures |r| >= 1
    decreases |s|
  {
    if |s| == 0 then [""]
    else
      var rest := Split(s[1..], sep);
      if s[0] == sep then [""] + rest
      else [[s[0]] + rest[0]] + rest[1..]
  }

  /** A prefix free of the separator becomes the front of the first piece. */
  lemma {:induction false} SplitPrefix(x: string, t: string, sep: char)
    requires sep !in x
    ensures Split(x + t, sep) == [x + Split(t, sep)[0]] + Split(t, sep)[1..]
    decreases |x|
  {
    if |x| == 0 {
      assert x + t == t;
      var pieces := Split(t, sep);
      assert x + pieces[0] == pieces[0];
      assert pieces == [pieces[0]] + pieces[1..];
    } else {
      assert (x + t)[0] == x[0];
      assert (x + t)[1..] == x[1..] + t;
      SplitPrefix(x[1..], t, sep);
      assert [x[0]] + (x[1..] + Split(t, sep)[0]) == x + Split(t, sep)[0];
    }
  }

  /** Splitting a joined list gives the list back, provided it is not empty and no
      element contains the separator. */
  lemma {:induction false} SplitJoin(xs: seq<string>, sep: char)
    requires |xs| > 0
    requires forall i :: 0 <= i < |xs| ==> sep !in xs[i]
    ensures Split(Join(xs, sep), sep) == xs
    decreases |xs|
  {
    if |xs| == 1 {
      SplitPrefix(xs[0], "", sep);
      assert xs[0] + "" == xs[0];
    } else {
      var tail := Join(xs[1..], sep);
      assert Join(xs, sep) == xs[0] + ([sep] + tail);
      SplitPrefix(xs[0], [sep] + tail, sep);
      assert ([sep] + tail)[1..] == tail;
      SplitJoin(xs[1..], sep);
      assert Split([sep] + tail, sep) == [""] + xs[1..];
      assert xs[0] + "" == xs[0];
      assert xs == [xs[0]] + xs[1..];
    }
  }
}

=== FILE: users.dfy ===
/** The user record shared by the listing page and the promotion route
    (v0.0/src/app/adminData/AllUsers/page.tsx, interface `User`), and the email-keyed
    predicates both sides use. Every field is a plain string; email is the key. */
module Users {

  datatype User = User(firstName: string, lastName: string, email: string, profilePic: string)

  /** Some record of xs carries the email e. */
  ghost predicate HasEmail(xs: seq<User>, e: string) {
    exists i :: 0 <= i < |xs| && xs[i].email == e
  }

  /** i is the position of the first record of xs whose email is e. */
  ghost predicate IsFirstMatch(xs: seq<User>, e: string, i: int) {
    && 0 <= i < |xs|
    && xs[i].email == e
    && forall j :: 0 <= j < i ==> xs[j].email != e
  }

  /** No two records share an email: the key invariant the system assumes of a collection. */
  ghost predicate UniqueEmails(xs: seq<User>) {
    forall i, j :: 0 <= i < j < |xs| ==> xs[i].email != xs[j].email
  }
}

=== FILE: wrappers.dfy ===
/** The optional value used wherever the source has `T | null` or a lookup that may miss. */
module Wrappers {

  datatype Option<+T> = None | Some(value: T)
}
